=== FILE: README.md ===
# Zoom recording downloader — a Dafny model

This project models the core of `ZoomDownloader` in `zoom_downloader.py`.
That class lists every account of a Zoom organisation and lists each account's
cloud recordings over 30-day date windows. It picks the MP4 files of each
meeting, names them, and downloads them. It can delete the meeting's cloud
recordings afterwards when built with `development=False`, which is how
main.py builds it (main.py:11) before calling `main()` (main.py:12). A meeting is recorded as finished in an append-only log
(`completed-downloads.log`), so the next run skips it.

The model is functional. Recordings, files and download tuples are immutable
datatypes. Windowing, selection, naming and percent-encoding are pure functions.
The meeting loop of `main` is a fold over the listed recordings. Its output is a
trace of events (skip, download, delete, incomplete file, completion), the
completed set, and the log's content.

Each kind of external call becomes a parameter:

- the answers to the user-listing pages (`pages`);
- the recording listing for each window request (`listing`);
- the outcome of each download call (`ok`);
- the rendering of a meeting's start time (`Config.formatTime`);
- whether remote deletion is switched off (`Config.development`). The constructor defaults to `development=True` (zoom_downloader.py:30), but main.py, the program's working entry point, passes `development=False` (main.py:11). So `Config.development = false` is the configuration that ships: after every download attempt, failed ones included, the meeting's recordings are deleted (zoom_downloader.py:300-301);
- the log file's content at start-up (`logFile`, `None` when the file does not exist).

Modules, one per component:

| module | file | what it holds |
|---|---|---|
| `Wrappers` | wrappers.dfy | `Option` and `Result` |
| `Strings` | strings.dfy | Python's `str.replace` (one character), `lower`, `title`, `strip` |
| `Windows` | windows.dfy | `perdelta`, the per-window listing requests, `list_recordings` |
| `Users` | users.dfy | `get_user_ids` and its pagination |
| `Selection` | selection.dfy | `get_downloads` and the recording-type rule |
| `Naming` | naming.dfy | `format_filename` |
| `PercentEncoding` | percent_encoding.dfy | `quote(…, safe='')` as in section 2.1 of RFC 3986, a decoder, and the delete endpoint |
| `CompletedLog` | completed_log.dfy | reading the log (`load_completed_meeting_ids`) and appending to it |
| `Controller` | controller.dfy | the per-file and per-meeting steps, the fold, and `main` |

Some behaviours of the code are easy to misread; the model follows the code:

- **Completion rule.** `success` starts false, is OR-ed with each download result, and is reset to false by an incomplete entry. So a meeting completes iff some download after its last incomplete entry succeeded (`Controller.ProcessFilesFlag`), not only when every file downloaded.
- **Page range.** `range(1, page_count + 1)` fetches pages `1..page_count` exactly, with no extra page (`Users.GetUserIds`).
- **Incomplete files.** `get_downloads` keeps incomplete MP4 entries among the downloads, with recording type `"incomplete"`; only the meeting loop skips them.
- **Window bounds.** `perdelta` splits the half-open range `[start, end)`: the last window ends at `end`, and `end` itself is not a window start.

## Model

| member | source | states |
|---|---|---|
| Windows.PerDelta | zoom_downloader.py:136-140 | no window when `start >= end`; otherwise the first window begins at `start` and the last one ends at `end`; every window lies inside `[start, end)` and satisfies `s < e <= s + delta`; each next window begins `delta` days after the previous one begins, exactly where the previous one ends |
| Windows.PerDeltaCount | zoom_downloader.py:136-140 | the number of windows is the ceiling of `(end - start) / delta`, and 0 for an empty range |
| Windows.PerDeltaDisjoint | zoom_downloader.py:136-140 | an earlier window ends no later than any later one begins, so windows never overlap |
| Windows.PerDeltaCovers | zoom_downloader.py:136-140 | every day of `[start, end)` lies in some window, so there are no gaps |
| Windows.NinetyFiveDays | zoom_downloader.py:145-153 | 95 days in 30-day windows take 4 listing calls, and the last window is days 90 to 95 |
| Windows.Requests | zoom_downloader.py:145-154 | the requests for one user: none for an empty range; otherwise the first starts at `start` and the last ends at `end`, each has page size 300 and asks for at most 30 days inside the range, and each starts where the previous one ended |
| Windows.ListRecordings | zoom_downloader.py:142-162 | one request per window, in window order, each with page size 300 and that window's bounds; the result concatenates the answers in request order |
| Users.GetUserIds | zoom_downloader.py:62-88 | a rejected first request ends in the expired-credentials exit; a page count below 1 ends in the unbound-`data` error; otherwise the result is the accounts of pages `1..page_count`, concatenated in page order |
| Users.AllPagesMembers | zoom_downloader.py:78-85 | an account is listed iff it appears on one of the pages `1..page_count` |
| Selection.RecordingTypeOf | zoom_downloader.py:109-117 | the type is `"incomplete"` for an empty file type, `"TIMELINE"` for a timeline, and the server's recording type otherwise; a file counts as incomplete iff its file type is empty, or it is not a timeline and the server itself says `"incomplete"` |
| Selection.ToDownload | zoom_downloader.py:109-124 | its body is the model of the tuple appended for a kept file: type, extension, URL with `?access_token=` and the token, derived recording type and id; `Selection.SelectPicked` and `Selection.GetDownloads` state that each download is this tuple of its file |
| Selection.Select | zoom_downloader.py:103-125 | never more downloads than files, and every download has extension exactly `"MP4"` |
| Selection.SelectAppend | zoom_downloader.py:105-124 | selection judges files one at a time: selecting `a + b` is selecting `a`, then `b` |
| Selection.GetDownloads | zoom_downloader.py:103-125 | the loop builds the selection; download `k` comes from the `k`-th `"MP4"` file and carries that file's type, extension, id and derived recording type, with the file's URL followed by `?access_token=` and the token |
| Selection.PickedExactlyMp4 | zoom_downloader.py:105-107 | the files downloads come from are exactly the `"MP4"` files (case-sensitive), each once, in input order; all other files are dropped |
| Selection.SelectPicked | zoom_downloader.py:105-124 | there is one download per picked file, and download `k` is the tuple built from the `k`-th picked file |
| Naming.FormatFilename | zoom_downloader.py:90-101 | its body is the model of the two format strings, `time - topic - Type - id.ext` and `topic - time`; its properties are stated by `Naming.FolderIsOneComponent`, `Naming.FilenameIsOneComponent` and `Naming.FormatFilenameShape` |
| Naming.SafeTopic | zoom_downloader.py:94 | the topic keeps its length and every character except `/`; each `/` becomes `&`, so the result has no `/` |
| Naming.TypeLabel | zoom_downloader.py:95 | the recording type label has no `_`, keeps its length, gains no `/`, and is already in title case |
| Naming.FolderIsOneComponent | zoom_downloader.py:90-101 | the folder name has no `/` when the meeting time has none: the topic never contributes one |
| Naming.FilenameIsOneComponent | zoom_downloader.py:90-101 | the file name has no `/` when the time, type, id and extension have none, so every file lands one folder deep |
| Naming.FormatFilenameShape | zoom_downloader.py:90-101 | the folder starts with the sanitised topic; the file name starts with the meeting time and ends with the lower-cased extension |
| Strings.ReplaceChar | zoom_downloader.py:94-95 | replacing one character changes exactly the positions that held it, and none remain afterwards |
| Strings.Lower | zoom_downloader.py:100 | lower-casing keeps the length, maps each character on its own, and leaves no upper-case letter |
| Strings.TitleFrom | zoom_downloader.py:95 | a letter after a letter is lower-cased, any other letter is upper-cased, and non-letters are kept |
| Strings.TitleIdempotent | zoom_downloader.py:95 | title-casing a title-cased string changes nothing |
| Strings.TrimStart | zoom_downloader.py:193 | strips exactly the leading run of whitespace |
| Strings.TrimEnd | zoom_downloader.py:193 | strips exactly the trailing run of whitespace |
| Strings.StripSpec | zoom_downloader.py:193 | `strip()` leaves no whitespace at either end, and leaves an already trimmed string as it is |
| PercentEncoding.Utf8 | zoom_downloader.py:51 | a character encodes as 1 to 4 bytes, and it is ASCII iff it encodes as its own single byte |
| PercentEncoding.QuoteChar | zoom_downloader.py:51 | an unreserved character passes through unchanged and is the only one that does; any other character becomes one escape per UTF-8 byte: `%` at every third position, each followed by two upper-case hex digits |
| PercentEncoding.Quote | zoom_downloader.py:51 | the quoted text holds only unreserved characters (ALPHA, DIGIT, `-._~`) and `%`, and is never shorter than the input |
| PercentEncoding.UnquoteQuote | zoom_downloader.py:51 | percent-decoding quoted ASCII text gives the text back |
| PercentEncoding.QuoteOfQuoted | zoom_downloader.py:51 | quoting already-quoted text leaves only `%25` escapes |
| PercentEncoding.DeleteSegment | zoom_downloader.py:51 | the doubly quoted UUID holds only unreserved characters and `%`, has no `/`, and every `%` is followed by `25` |
| PercentEncoding.DeleteSegmentRoundTrip | zoom_downloader.py:51 | decoding the segment twice gives back an ASCII UUID |
| PercentEncoding.DeleteEndpoint | zoom_downloader.py:50-52 | its body is the model of the endpoint: the prefix, the UUID quoted twice, then `/recordings`; `PercentEncoding.DeleteSegment`, `PercentEncoding.DeleteSegmentRoundTrip` and `PercentEncoding.DeleteEndpointInjective` state its properties |
| PercentEncoding.DeleteEndpointInjective | zoom_downloader.py:50-52 | two different ASCII UUIDs never share a delete endpoint |
| CompletedLog.Lines | zoom_downloader.py:191-192 | its body is the model of iterating over the file in text mode: `\n`, `\r` and `\r\n` each end a line, and a last line without terminator is still a line; `CompletedLog.LinesAppend` and `CompletedLog.LinesEntry` state its properties |
| CompletedLog.Entry | zoom_downloader.py:314-315 | its body is the model of the two writes, the UUID and then `\n`; `CompletedLog.LinesEntry` and `CompletedLog.AppendEntry` state that it reads back as exactly that UUID |
| CompletedLog.Load | zoom_downloader.py:189-199 | loading only adds to the set; a missing file leaves the set unchanged and is no error; every stripped line of the file joins the set, and nothing else does |
| CompletedLog.LinesAppend | zoom_downloader.py:191-193 | a log that ends at a line boundary splits into lines the same way whatever is appended after it |
| CompletedLog.LinesEntry | zoom_downloader.py:312-316 | an entry whose ID has no line break reads back as exactly one line, the ID |
| CompletedLog.AppendEntry | zoom_downloader.py:312-316 | appending `id + "\n"` adds exactly `id` to what the log reloads to, for an id with no line break inside and no whitespace at either end |
| CompletedLog.WrittenRoundTrip | zoom_downloader.py:189-199 | a log written from scratch, one entry per completed meeting, ends at a line boundary and its lines strip to exactly the IDs written |
| CompletedLog.LoadWritten | zoom_downloader.py:189-199 | loading such a log into an empty set gives exactly the IDs written |
| Controller.CallFor | zoom_downloader.py:277-297 | its body is the model of the arguments: `format_filename` gets the topic, the start time through `formatTime`, the extension, the derived recording type and the id, and `download_recording` gets the download URL with the resulting folder and file name; `Naming.FolderIsOneComponent`, `Naming.FilenameIsOneComponent` and `Naming.FormatFilenameShape` state what those names look like |
| Controller.FileStep | zoom_downloader.py:277-308 | its body is the model of one pass of the inner loop: a complete file is downloaded, OR-ed into the flag and, outside development, followed by a delete; an incomplete file resets the flag; `Controller.FileStepCalls` and `Controller.FlagStep` state its properties |
| Controller.ProcessFiles | zoom_downloader.py:270-308 | its body is the model of the inner loop over the downloads, in order; `Controller.ProcessFilesFlag` and `Controller.ProcessFilesCalls` state its properties |
| Controller.ProcessFilesFlag | zoom_downloader.py:270-308 | the flag the file loop ends with is true iff the starting flag survives with no incomplete entry, or some download after the last incomplete entry succeeded |
| Controller.FlagStep | zoom_downloader.py:296-308 | one file step moves the flag exactly as that description predicts |
| Controller.FileStepCalls | zoom_downloader.py:277-308 | a complete file makes one download call, plus one delete outside development; an incomplete file makes neither call |
| Controller.ProcessFilesCalls | zoom_downloader.py:270-308 | the download calls are exactly one per complete file, in order; outside development there is one delete per complete file whatever the outcome, and none in development; every delete targets the meeting's own endpoint |
| Controller.PlannedNone | zoom_downloader.py:277-308 | downloads that are all incomplete plan no download call |
| Controller.ProcessMeeting | zoom_downloader.py:260-316 | a meeting already in the set only leaves a skip event and changes nothing else; otherwise its UUID joins the set, and its entry is appended to the log, iff the meeting succeeds |
| Controller.IncompleteOnlyNeverCompletes | zoom_downloader.py:277-308 | a meeting whose selected files are all incomplete makes no download call and never joins the set |
| Controller.MeetingCalls | zoom_downloader.py:263-316 | a skipped meeting adds only its skip event; any other meeting adds one download call per complete file and, outside development, as many deletes; a completion event comes last iff the meeting completes |
| Controller.RunMeetings | zoom_downloader.py:260-316 | the set only grows, and the log and trace only get longer |
| Controller.RunMeetingsCompleted | zoom_downloader.py:260-316 | a UUID is in the final set iff it was there before or some listed meeting with that UUID succeeds |
| Controller.RunMeetingsAppend | zoom_downloader.py:246-316 | running over `a + b` is running over `a`, then over `b` |
| Controller.RunKeepsLogMatchingSet | zoom_downloader.py:310-316 | if the set matches the log at the start, it still matches after the loop; so a run stopped after any meeting reloads to exactly the meetings completed so far |
| Controller.NothingToComplete | zoom_downloader.py:263-316 | when every meeting is already completed or cannot succeed, the loop changes neither the set nor the log |
| Controller.RerunCompletesNothing | zoom_downloader.py:260-316 | a second run over the same meetings, with the same download outcomes, completes nothing new and appends nothing to the log; for meetings that failed the first time this follows only from reusing those outcomes |
| Controller.AllDoneOnlySkips | zoom_downloader.py:263-268 | a run over meetings already in the completed set, under any download outcomes, adds one skip event per meeting and nothing else: no download or delete call, and the set and the log stay unchanged |
| Controller.Idempotent | zoom_downloader.py:260-316 | once a run has completed every meeting not already done, a second run over the same meetings, under any download outcomes, only skips them and leaves the set and the log as the first run left them |
| Controller.DuplicateSkipped | zoom_downloader.py:263-267 | a later meeting with the UUID of one just completed is skipped, with no call made for it |
| Controller.Catalog | zoom_downloader.py:246-258 | its body is the model of the recordings `main` walks: each account's listing over the date windows, in account order; `Controller.CatalogStep` and `Controller.RunAll` state how the loop runs over it |
| Controller.CatalogStep | zoom_downloader.py:246-316 | handling one more account runs the meeting loop over that account's listing after the accounts before it |
| Controller.Initial | zoom_downloader.py:189-199 | a missing log, or one that ends at a line boundary, gives a start-up set equal to what the log reloads to |
| Controller.RunFromLogMatchesSet | zoom_downloader.py:310-316 | from such a log, after any number of meetings with clean UUIDs, the log reloads to exactly the run's completed set, so a run stopped at any point resumes where it stopped |
| Controller.ProcessRecordings | zoom_downloader.py:260-316 | the loop over one account's recordings is the fold over them in listing order |
| Controller.RunAll | zoom_downloader.py:241-316 | `main` fails for a rejected credential and for a page count below 1; otherwise it folds the meeting loop over every account's listing, in account order, starting from the loaded set |

## Left out

- HTTP calls are not modelled. The user pages, the recording listings and the streamed download are answered by the oracles `pages`, `listing` and `ok`. `DELETE` requests are trace events only.
- `download_recording` is not modelled: directory creation, the file writes and the tqdm progress bar are I/O. Its boolean result is the `ok` oracle. The oracle is keyed by the download call, so the same target always gets the same outcome.
- Failures that end the run are not modelled. `download_recording` returns False only for an exception inside its `try` (zoom_downloader.py:176-187); `os.makedirs` and `requests.get` (zoom_downloader.py:167-168) sit outside it, so their errors propagate out of `main`. So do errors of `requests.delete` (zoom_downloader.py:202) and of the listing's `response.json()` and `["meetings"]` (zoom_downloader.py:160-161), such as a KeyError for an error reply without `"meetings"`. The oracles `ok` and `listing` are total and cover only runs without such an abort. A run that aborts after some meetings leaves the log as a run over that prefix of the meetings would, which `Controller.RunKeepsLogMatchingSet` covers.
- The download directory and the `os.sep` join of directory, folder and file name are not modelled. A download call carries the folder and file name only.
- `parse(start_time).strftime(...)` is not modelled. It is the `Config.formatTime` parameter. A malformed timestamp, which would raise, is not modelled.
- `date.today()` and the "yesterday" arithmetic are not modelled. Line 43 produces day 0 on the first of a month. Windows take integer day numbers instead.
- `config("JWT_TOKEN")` is the `Config.token` parameter.
- `API_ENDPOINT_RECORDING_LIST`, `get_credentials` and `get_recordings` only build URLs and dicts. A listing request is the `ListRequest` datatype.
- Screen clearing, the banner, all printing, the truncated URL in the progress message, and the colours are not modelled.
- zoom_downloader.py's own entry point is not modelled. Its `SIGINT` registration names `zoom_downloader.handler`, a method the class does not define, so it raises an AttributeError at zoom_downloader.py:333 before `main()` at zoom_downloader.py:335 runs. The model follows main.py:11-12 instead.
- main.py after its `main()` call (main.py:14-31: Vimeo upload, `glob`, `mkdir`, `shutil.move`, `rmtree`) and upload_vimeo.py (SDK client construction) are not part of this model. They are upload I/O.
- Users.GetUserIds: a per-page failure, and a `page_count` that `int()` cannot convert, are not modelled. Each page's answer is total.
- Windows.PerDelta: requires `delta > 0`. The only caller passes 30 days. A zero delta makes the generator endless.
- Strings.TitleFrom: case mapping covers ASCII letters only. Python's `title()` and `lower()` also case non-ASCII letters, and treat them as word characters.
- Strings.Lower: ASCII letters only, for the same reason.
- PercentEncoding.UnquoteQuote: the round trip is proved for ASCII text only. The encoder handles every character through its UTF-8 bytes, but the decoder maps one escape to one character.
- PercentEncoding.DeleteSegmentRoundTrip: ASCII UUIDs only, for the same reason.
- CompletedLog.AppendEntry: holds only for IDs with no line break inside and no whitespace at either end. Other IDs do not survive `strip()` and line splitting.
- Controller.RunKeepsLogMatchingSet: holds only for such clean UUIDs, and for a log that is empty or ends with a newline.
- Controller.RunFromLogMatchesSet: the same restrictions.
- Controller.Initial: promises the match only for a missing log or one that ends with a newline; a log cut off mid-line would join the next entry to its last line.
- Only Python's own `isspace` characters are treated as whitespace by `strip()`. The decoding of the log file's bytes into text is not modelled.

=== FILE: completed_log.dfy ===
/**
 * The completed-meetings log: one meeting UUID per line, appended after each
 * finished meeting and read back into a set at start-up. Reading follows
 * Python's text mode: `\n`, `\r` and `\r\n` all end a line, and every line
 * is `strip()`ped before it joins the set.
 */
module CompletedLog {
  import opened Wrappers
  import opened Strings

  predicate IsBreak(c: char) { c == '\n' || c == '\r' }

  predicate NoBreaks(s: string)
  {
    forall i :: 0 <= i < |s| ==> !IsBreak(s[i])
  }

  /**
   * The lines iteration over the open file yields, without their terminators:
   * `line` is the part of the current line read so far.
   */
  function SplitLines(s: string, line: string): seq<string>
    decreases |s|
  {
    if |s| == 0 then (if |line| == 0 then [] else [line])
    else if s[0] == '\n' then [line] + SplitLines(s[1..], [])
    else if s[0] == '\r' then [line] + SplitLines(if |s| > 1 && s[1] == '\n' then s[2..] else s[1..], [])
    else SplitLines(s[1..], line + [s[0]])
  }

  function Lines(s: string): seq<string>
  {
    SplitLines(s, [])
  }

  /** What one completion appends: `log.write(meeting_id); log.write("\n")`. */
  function Entry(id: string): string
  {
    id + "\n"
  }

  /** The log is empty or ends with a newline, so the next entry starts a line of its own. */
  predicate AtLineStart(log: string)
  {
    |log| == 0 || log[|log| - 1] == '\n'
  }

  /** An ID that survives the round trip: no line break inside, no whitespace at the ends. */
  predicate Clean(id: string)
  {
    NoBreaks(id) && Trimmed(id)
  }

  /** A log that ends at a line boundary splits independently of what is appended. */
  lemma {:induction false} SplitLinesAppend(a: string, b: string, line: string)
    requires AtLineStart(a) && (|a| == 0 ==> line == [])
    ensures SplitLines(a + b, line) == SplitLines(a, line) + SplitLines(b, [])
    decreases |a|
  {
    if |a| == 0 {
      assert a + b == b;
    } else {
      var s := a + b;
      assert s[0] == a[0];
      if a[0] == '\n' {
        SuffixOfAppend(a, b, 1);
        SplitLinesAppend(a[1..], b, []);
      } else if a[0] == '\r' {
        assert |a| > 1;
        assert s[1] == a[1];
        var n := if a[1] == '\n' then 2 else 1;
        SuffixOfAppend(a, b, n);
        SplitLinesAppend(a[n..], b, []);
      } else {
        assert |a| > 1;
        SuffixOfAppend(a, b, 1);
        SplitLinesAppend(a[1..], b, line + [a[0]]);
      }
    }
  }

  lemma LinesAppend(a: string, b: string)
    requires AtLineStart(a)
    ensures Lines(a + b) == Lines(a) + Lines(b)
  {
    SplitLinesAppend(a, b, []);
  }

  lemma SuffixOfAppend(a: string, b: string, n: nat)
    requires n <= |a|
    ensures (a + b)[n..] == a[n..] + b
  {
  }

  /** An ID without line breaks makes up one line: the one it was appended as. */
  lemma {:induction false} SplitEntry(id: string, line: string)
    requires NoBreaks(id)
    ensures SplitLines(Entry(id), line) == [line + id]
    decreases |id|
  {
    if |id| == 0 {
      assert Entry(id) == "\n";
      assert line + id == line;
    } else {
      assert Entry(id)[1..] == Entry(id[1..]);
      SplitEntry(id[1..], line + [id[0]]);
      assert line + [id[0]] + id[1..] == line + id;
    }
  }

  lemma LinesEntry(id: string)
    requires NoBreaks(id)
    ensures Lines(Entry(id)) == [id]
  {
    SplitEntry(id, []);
    assert [] + id == id;
  }

  /** The set of `f`'s values over `s`. */
  function Image<T, U>(f: T -> U, s: seq<T>): set<U>
  {
    if |s| == 0 then {} else Image(f, s[..|s| - 1]) + {f(s[|s| - 1])}
  }

  /** `f`'s value at every element is in the image, and nothing else is. */
  lemma {:induction false} ImageMembers<T, U>(f: T -> U, s: seq<T>, x: U)
    ensures x in Image(f, s) <==> exists i :: 0 <= i < |s| && f(s[i]) == x
  {
    if |s| > 0 {
      var n := |s| - 1;
      var init := s[..n];
      ImageMembers(f, init, x);
      assert x in Image(f, s) <==> x in Image(f, init) || f(s[n]) == x;
      if x in Image(f, init) {
        var i :| 0 <= i < |init| && f(init[i]) == x;
        assert s[i] == init[i];
      }
      if exists i :: 0 <= i < |s| && f(s[i]) == x {
        var i :| 0 <= i < |s| && f(s[i]) == x;
        if i < n {
          assert init[i] == s[i];
        }
      }
    }
  }

  /** The IDs the lines of `log` contribute. */
  function LoggedIds(log: string): set<string>
  {
    Image(Strip, Lines(log))
  }

  /**
   * `load_completed_meeting_ids()`: `file` is the log's content, `None` when
   * the file does not exist, which leaves the set as it was.
   */
  function Load(completed: set<string>, file: Option<string>): (r: set<string>)
    ensures completed <= r
    ensures file.None? ==> r == completed
    ensures forall x :: x in r <==>
      x in completed || (file.Some? && exists i :: 0 <= i < |Lines(file.value)| && Strip(Lines(file.value)[i]) == x)
  {
    match file
    case None => completed
    case Some(content) =>
      var r := completed + LoggedIds(content);
      assert forall x :: x in r <==>
        x in completed || exists i :: 0 <= i < |Lines(content)| && Strip(Lines(content)[i]) == x
      by {
        forall x {
          ImageMembers(Strip, Lines(content), x);
        }
      }
      r
  }

  /** Appending an entry adds exactly its ID to what the log reloads to. */
  lemma AppendEntry(log: string, id: string)
    requires AtLineStart(log) && Clean(id)
    ensures LoggedIds(log + Entry(id)) == LoggedIds(log) + {id}
    ensures AtLineStart(log + Entry(id))
  {
    LinesAppend(log, Entry(id));
    LinesEntry(id);
    StripSpec(id);
    var lines := Lines(log + Entry(id));
    assert lines == Lines(log) + [id];
    assert lines[..|lines| - 1] == Lines(log);
  }

  /** The log written by completing `ids` in order, starting from no file. */
  function Written(ids: seq<string>): string
  {
    if |ids| == 0 then [] else Written(ids[..|ids| - 1]) + Entry(ids[|ids| - 1])
  }

  /** Reloading a log written from scratch recovers exactly the IDs written into it. */
  lemma {:induction false} WrittenRoundTrip(ids: seq<string>)
    requires forall i :: 0 <= i < |ids| ==> Clean(ids[i])
    ensures AtLineStart(Written(ids))
    ensures LoggedIds(Written(ids)) == set x | x in ids
  {
    if |ids| > 0 {
      var n := |ids| - 1;
      var init := ids[..n];
      assert forall i :: 0 <= i < |init| ==> init[i] == ids[i];
      WrittenRoundTrip(init);
      assert Clean(ids[n]);
      AppendEntry(Written(init), ids[n]);
      ElementsSnoc(init, ids[n]);
      assert ids == init + [ids[n]];
    } else {
      assert Lines([]) == [];
    }
  }

  lemma ElementsSnoc(init: seq<string>, last: string)
    ensures (set x | x in init + [last]) == (set x | x in init) + {last}
  {
  }

  /** Loading a freshly written log yields exactly the IDs written into it. */
  lemma LoadWritten(ids: seq<string>)
    requires forall i :: 0 <= i < |ids| ==> Clean(ids[i])
    ensures Load({}, Some(Written(ids))) == set x | x in ids
  {
    WrittenRoundTrip(ids);
  }
}

=== FILE: controller.dfy ===
/**
 * The per-meeting loop of `main`: skip meetings already completed, download
 * every selected file, optionally delete the meeting's cloud recordings, and
 * record the meeting as completed when the success flag ends up true.
 * Downloads are answered by an oracle; the run is a fold over the meetings
 * that produces an event trace, the completed set and the appended log.
 */
module Controller {
  import opened Wrappers
  import opened Selection
  import Naming
  import PercentEncoding
  import CompletedLog
  import Windows
  import Users

  /**
   * `token` is the access token appended to download URLs, `development`
   * switches remote deletion off, and `formatTime` stands for the
   * `parse(...).strftime(...)` rendering of a meeting's start time.
   */
  datatype Config = Config(token: string, development: bool, formatTime: string -> string)

  /** The target of one `download_recording` call. */
  datatype DownloadCall = DownloadCall(url: string, folder: string, filename: string)

  /** What the loop does, in order. */
  datatype Event =
    | Skipped(uuid: string)                          // already in the completed set
    | Fetched(call: DownloadCall, ok: bool)          // one `download_recording` call and its result
    | Deleted(endpoint: string)                      // one `delete_meeting` request
    | IncompleteFile(uuid: string, recordingId: string)
    | Completed(uuid: string)                        // added to the set and appended to the log

  /** The completed set, the log file's content and the events so far. */
  datatype State = State(completed: set<string>, log: string, trace: seq<Event>)

  predicate IsIncomplete(d: Download)
  {
    d.recordingType == Incomplete
  }

  /** Where `format_filename` puts the file of download `d`. */
  function CallFor(cfg: Config, rec: Recording, d: Download): DownloadCall
  {
    var names := Naming.FormatFilename(rec.topic, cfg.formatTime(rec.startTime), d.fileExtension, d.recordingType, d.recordingId);
    DownloadCall(d.url, names.folder, names.filename)
  }

  /**
   * One iteration of the inner loop: a complete file is downloaded (and the
   * meeting deleted unless in development), OR-ing the result into the flag;
   * an incomplete one resets the flag.
   */
  function FileStep(cfg: Config, rec: Recording, d: Download, ok: DownloadCall -> bool, success: bool): (bool, seq<Event>)
  {
    if !IsIncomplete(d) then
      var call := CallFor(cfg, rec, d);
      var got := ok(call);
      var deletes := if cfg.development then [] else [Deleted(PercentEncoding.DeleteEndpoint(rec.uuid))];
      (success || got, [Fetched(call, got)] + deletes)
    else
      (false, [IncompleteFile(rec.uuid, d.recordingId)])
  }

  /** The inner loop over `ds` from flag `success`: the final flag and the events. */
  function ProcessFiles(cfg: Config, rec: Recording, ds: seq<Download>, ok: DownloadCall -> bool, success: bool): (bool, seq<Event>)
  {
    if |ds| == 0 then (success, [])
    else
      var (s1, ev1) := FileStep(cfg, rec, ds[0], ok, success);
      var (s2, ev2) := ProcessFiles(cfg, rec, ds[1..], ok, s1);
      (s2, ev1 + ev2)
  }

  /** No incomplete download at or after position `from`. */
  ghost predicate NoIncompleteFrom(ds: seq<Download>, from: int)
  {
    forall j :: from <= j < |ds| && 0 <= j ==> !IsIncomplete(ds[j])
  }

  /** Download `i` succeeded and nothing after it resets the flag. */
  ghost predicate LastingSuccess(cfg: Config, rec: Recording, ds: seq<Download>, ok: DownloadCall -> bool, i: int)
    requires 0 <= i < |ds|
  {
    !IsIncomplete(ds[i]) && ok(CallFor(cfg, rec, ds[i])) && NoIncompleteFrom(ds, i + 1)
  }

  /**
   * The flag the inner loop ends with, stated without the loop: the starting
   * flag survives when nothing resets it, and otherwise some download after
   * the last incomplete entry must have succeeded.
   */
  ghost predicate FlagAfter(cfg: Config, rec: Recording, ds: seq<Download>, ok: DownloadCall -> bool, success: bool)
  {
    || (success && NoIncompleteFrom(ds, 0))
    || exists i :: 0 <= i < |ds| && LastingSuccess(cfg, rec, ds, ok, i)
  }

  /** Dropping the first download shifts every position by one. */
  lemma LastingSuccessTail(cfg: Config, rec: Recording, ds: seq<Download>, ok: DownloadCall -> bool, i: int)
    requires 0 <= i < |ds| - 1
    ensures LastingSuccess(cfg, rec, ds[1..], ok, i) <==> LastingSuccess(cfg, rec, ds, ok, i + 1)
  {
    assert ds[1..][i] == ds[i + 1];
    assert NoIncompleteFrom(ds[1..], i + 1) <==> NoIncompleteFrom(ds, i + 2) by {
      assert forall j :: i + 1 <= j < |ds| - 1 ==> ds[1..][j] == ds[j + 1];
    }
  }

  /** The flag the inner loop computes is the one `FlagAfter` describes. */
  lemma {:induction false} ProcessFilesFlag(cfg: Config, rec: Recording, ds: seq<Download>, ok: DownloadCall -> bool, success: bool)
    ensures ProcessFiles(cfg, rec, ds, ok, success).0 <==> FlagAfter(cfg, rec, ds, ok, success)
    decreases |ds|
  {
    if |ds| > 0 {
      var rest := ds[1..];
      var s1 := FileStep(cfg, rec, ds[0], ok, success).0;
      ProcessFilesFlag(cfg, rec, rest, ok, s1);
      FlagStep(cfg, rec, ds, ok, success, s1);
    }
  }

  /** One step of the loop, in terms of `FlagAfter`. */
  lemma FlagStep(cfg: Config, rec: Recording, ds: seq<Download>, ok: DownloadCall -> bool, success: bool, s1: bool)
    requires |ds| > 0 && s1 == FileStep(cfg, rec, ds[0], ok, success).0
    ensures FlagAfter(cfg, rec, ds[1..], ok, s1) <==> FlagAfter(cfg, rec, ds, ok, success)
  {
    if FlagAfter(cfg, rec, ds[1..], ok, s1) {
      FlagStepForward(cfg, rec, ds, ok, success, s1);
    }
    if FlagAfter(cfg, rec, ds, ok, success) {
      FlagStepBackward(cfg, rec, ds, ok, success, s1);
    }
  }

  lemma NoIncompleteShift(ds: seq<Download>)
    requires |ds| > 0
    ensures NoIncompleteFrom(ds, 0) <==> !IsIncomplete(ds[0]) && NoIncompleteFrom(ds[1..], 0)
    ensures NoIncompleteFrom(ds, 1) <==> NoIncompleteFrom(ds[1..], 0)
  {
    assert forall j :: 0 <= j < |ds| - 1 ==> ds[1..][j] == ds[j + 1];
  }

  lemma FlagStepForward(cfg: Config, rec: Recording, ds: seq<Download>, ok: DownloadCall -> bool, success: bool, s1: bool)
    requires |ds| > 0 && s1 == FileStep(cfg, rec, ds[0], ok, success).0
    requires FlagAfter(cfg, rec, ds[1..], ok, s1)
    ensures FlagAfter(cfg, rec, ds, ok, success)
  {
    NoIncompleteShift(ds);
    var rest := ds[1..];
    if s1 && NoIncompleteFrom(rest, 0) {
      if !success {
        assert LastingSuccess(cfg, rec, ds, ok, 0);
      }
    } else {
      var i :| 0 <= i < |rest| && LastingSuccess(cfg, rec, rest, ok, i);
      LastingSuccessTail(cfg, rec, ds, ok, i);
    }
  }

  lemma FlagStepBackward(cfg: Config, rec: Recording, ds: seq<Download>, ok: DownloadCall -> bool, success: bool, s1: bool)
    requires |ds| > 0 && s1 == FileStep(cfg, rec, ds[0], ok, success).0
    requires FlagAfter(cfg, rec, ds, ok, success)
    ensures FlagAfter(cfg, rec, ds[1..], ok, s1)
  {
    NoIncompleteShift(ds);
    var rest := ds[1..];
    if success && NoIncompleteFrom(ds, 0) {
      assert s1 && NoIncompleteFrom(rest, 0);
    } else {
      var i :| 0 <= i < |ds| && LastingSuccess(cfg, rec, ds, ok, i);
      if i > 0 {
        LastingSuccessTail(cfg, rec, ds, ok, i - 1);
        assert LastingSuccess(cfg, rec, rest, ok, i - 1);
      } else {
        assert s1 && NoIncompleteFrom(rest, 0);
      }
    }
  }

  /** The download calls recorded in `ev`, in order. */
  function Calls(ev: seq<Event>): seq<DownloadCall>
  {
    if |ev| == 0 then [] else (if ev[0].Fetched? then [ev[0].call] else []) + Calls(ev[1..])
  }

  /** The number of delete requests recorded in `ev`. */
  function DeleteCount(ev: seq<Event>): nat
  {
    if |ev| == 0 then 0 else (if ev[0].Deleted? then 1 else 0) + DeleteCount(ev[1..])
  }

  /** One call per complete download, in download order. */
  function Planned(cfg: Config, rec: Recording, ds: seq<Download>): seq<DownloadCall>
  {
    if |ds| == 0 then [] else (if IsIncomplete(ds[0]) then [] else [CallFor(cfg, rec, ds[0])]) + Planned(cfg, rec, ds[1..])
  }

  lemma {:induction false} CallsAppend(a: seq<Event>, b: seq<Event>)
    ensures Calls(a + b) == Calls(a) + Calls(b)
    decreases |a|
  {
    if |a| == 0 {
      assert a + b == b;
    } else {
      assert (a + b)[0] == a[0];
      assert (a + b)[1..] == a[1..] + b;
      CallsAppend(a[1..], b);
    }
  }

  lemma {:induction false} DeleteCountAppend(a: seq<Event>, b: seq<Event>)
    ensures DeleteCount(a + b) == DeleteCount(a) + DeleteCount(b)
    decreases |a|
  {
    if |a| == 0 {
      assert a + b == b;
    } else {
      assert (a + b)[0] == a[0];
      assert (a + b)[1..] == a[1..] + b;
      DeleteCountAppend(a[1..], b);
    }
  }

  lemma CountsAppend(a: seq<Event>, b: seq<Event>)
    ensures Calls(a + b) == Calls(a) + Calls(b)
    ensures DeleteCount(a + b) == DeleteCount(a) + DeleteCount(b)
  {
    CallsAppend(a, b);
    DeleteCountAppend(a, b);
  }

  /** A single event contributes its own call or delete, if any. */
  lemma CountsSingle(e: Event)
    ensures Calls([e]) == (if e.Fetched? then [e.call] else [])
    ensures DeleteCount([e]) == (if e.Deleted? then 1 else 0)
  {
    assert [e][1..] == [];
  }

  /** The events of the file loop for meeting `rec` only fetch files, delete `rec` and report incomplete files. */
  ghost predicate FileEvents(rec: Recording, ev: seq<Event>)
  {
    forall k :: 0 <= k < |ev| ==>
      && (ev[k].Fetched? || ev[k].Deleted? || ev[k].IncompleteFile?)
      && (ev[k].Deleted? ==> ev[k].endpoint == PercentEncoding.DeleteEndpoint(rec.uuid))
  }

  lemma FileEventsAppend(rec: Recording, a: seq<Event>, b: seq<Event>)
    requires FileEvents(rec, a) && FileEvents(rec, b)
    ensures FileEvents(rec, a + b)
  {
    assert forall k :: |a| <= k < |a + b| ==> (a + b)[k] == b[k - |a|];
  }

  /** The events of one file step. */
  lemma FileStepCalls(cfg: Config, rec: Recording, d: Download, ok: DownloadCall -> bool, success: bool)
    ensures var ev := FileStep(cfg, rec, d, ok, success).1;
      && Calls(ev) == (if IsIncomplete(d) then [] else [CallFor(cfg, rec, d)])
      && DeleteCount(ev) == (if IsIncomplete(d) || cfg.development then 0 else 1)
      && FileEvents(rec, ev)
  {
    var ev := FileStep(cfg, rec, d, ok, success).1;
    if !IsIncomplete(d) {
      var call := CallFor(cfg, rec, d);
      var fetched := Fetched(call, ok(call));
      CountsSingle(fetched);
      if cfg.development {
        assert ev == [fetched];
      } else {
        var deleted := Deleted(PercentEncoding.DeleteEndpoint(rec.uuid));
        assert ev == [fetched] + [deleted];
        CountsSingle(deleted);
        CountsAppend([fetched], [deleted]);
      }
    } else {
      CountsSingle(IncompleteFile(rec.uuid, d.recordingId));
    }
  }

  /**
   * Each complete download makes exactly one download call, in order, and
   * (outside development) exactly one delete call whatever its outcome;
   * incomplete entries make neither.
   */
  lemma {:induction false} ProcessFilesCalls(cfg: Config, rec: Recording, ds: seq<Download>, ok: DownloadCall -> bool, success: bool)
    ensures var ev := ProcessFiles(cfg, rec, ds, ok, success).1;
      && Calls(ev) == Planned(cfg, rec, ds)
      && DeleteCount(ev) == (if cfg.development then 0 else |Planned(cfg, rec, ds)|)
      && FileEvents(rec, ev)
    decreases |ds|
  {
    if |ds| > 0 {
      var step := FileStep(cfg, rec, ds[0], ok, success);
      var ev1 := step.1;
      var ev2 := ProcessFiles(cfg, rec, ds[1..], ok, step.0).1;
      assert ProcessFiles(cfg, rec, ds, ok, success).1 == ev1 + ev2;
      ProcessFilesCalls(cfg, rec, ds[1..], ok, step.0);
      FileStepCalls(cfg, rec, ds[0], ok, success);
      CountsAppend(ev1, ev2);
      FileEventsAppend(rec, ev1, ev2);
    }
  }

  lemma {:induction false} PlannedNone(cfg: Config, rec: Recording, ds: seq<Download>)
    requires forall i :: 0 <= i < |ds| ==> IsIncomplete(ds[i])
    ensures Planned(cfg, rec, ds) == []
    decreases |ds|
  {
    if |ds| > 0 {
      PlannedNone(cfg, rec, ds[1..]);
    }
  }

  /** A meeting ends with its flag set: some download after its last incomplete entry succeeded. */
  ghost predicate MeetingSucceeds(cfg: Config, ok: DownloadCall -> bool, rec: Recording)
  {
    var ds := Select(rec.files, cfg.token);
    exists i :: 0 <= i < |ds| && LastingSuccess(cfg, rec, ds, ok, i)
  }

  /** Whether processing `rec` from state `st` records it as completed. */
  ghost predicate Completes(cfg: Config, ok: DownloadCall -> bool, st: State, rec: Recording)
  {
    rec.uuid !in st.completed && MeetingSucceeds(cfg, ok, rec)
  }

  /**
   * One iteration of the meeting loop. A meeting already completed only
   * leaves a skip event; otherwise it is added to the set, and its entry
   * appended to the log, exactly when it succeeds.
   */
  function ProcessMeeting(cfg: Config, ok: DownloadCall -> bool, st: State, rec: Recording): (r: State)
    ensures rec.uuid in st.completed ==> r == st.(trace := st.trace + [Skipped(rec.uuid)])
    ensures r.completed == st.completed + (if Completes(cfg, ok, st, rec) then {rec.uuid} else {})
    ensures r.log == st.log + (if Completes(cfg, ok, st, rec) then CompletedLog.Entry(rec.uuid) else [])
    ensures st.trace <= r.trace
  {
    if rec.uuid in st.completed then
      st.(trace := st.trace + [Skipped(rec.uuid)])
    else
      var ds := Select(rec.files, cfg.token);
      var (success, ev) := ProcessFiles(cfg, rec, ds, ok, false);
      ProcessFilesFlag(cfg, rec, ds, ok, false);
      if success then
        State(st.completed + {rec.uuid}, st.log + CompletedLog.Entry(rec.uuid), st.trace + ev + [Completed(rec.uuid)])
      else
        st.(trace := st.trace + ev)
  }

  /** A recording whose selected files are all incomplete makes no download call and is never completed. */
  lemma IncompleteOnlyNeverCompletes(cfg: Config, ok: DownloadCall -> bool, st: State, rec: Recording)
    requires forall i :: 0 <= i < |Select(rec.files, cfg.token)| ==> IsIncomplete(Select(rec.files, cfg.token)[i])
    ensures Planned(cfg, rec, Select(rec.files, cfg.token)) == []
    ensures !MeetingSucceeds(cfg, ok, rec)
    ensures ProcessMeeting(cfg, ok, st, rec).completed == st.completed
  {
    PlannedNone(cfg, rec, Select(rec.files, cfg.token));
  }

  /** The events one meeting adds to the trace. */
  function NewEvents(cfg: Config, ok: DownloadCall -> bool, st: State, rec: Recording): seq<Event>
  {
    ProcessMeeting(cfg, ok, st, rec).trace[|st.trace|..]
  }

  /**
   * The calls one meeting makes: none when it is already completed; otherwise
   * one download per complete file and, outside development, as many deletes,
   * with a completion event last exactly when it succeeds.
   */
  lemma MeetingCalls(cfg: Config, ok: DownloadCall -> bool, st: State, rec: Recording)
    ensures var ev := NewEvents(cfg, ok, st, rec);
      var planned := Planned(cfg, rec, Select(rec.files, cfg.token));
      if rec.uuid in st.completed then ev == [Skipped(rec.uuid)]
      else
        && Calls(ev) == planned
        && DeleteCount(ev) == (if cfg.development then 0 else |planned|)
        && (Completes(cfg, ok, st, rec) <==> |ev| > 0 && ev[|ev| - 1] == Completed(rec.uuid))
  {
    if rec.uuid in st.completed {
      DropPrefix(st.trace, [Skipped(rec.uuid)]);
    } else {
      var ds := Select(rec.files, cfg.token);
      var files := ProcessFiles(cfg, rec, ds, ok, false);
      ProcessFilesCalls(cfg, rec, ds, ok, false);
      ProcessFilesFlag(cfg, rec, ds, ok, false);
      MeetingEvents(cfg, ok, st, rec, files.0, files.1);
    }
  }

  /** The new events of a meeting not yet completed: its file events, then the completion if the flag is set. */
  lemma MeetingEvents(cfg: Config, ok: DownloadCall -> bool, st: State, rec: Recording, success: bool, fev: seq<Event>)
    requires rec.uuid !in st.completed
    requires (success, fev) == ProcessFiles(cfg, rec, Select(rec.files, cfg.token), ok, false)
    requires FileEvents(rec, fev)
    requires success <==> MeetingSucceeds(cfg, ok, rec)
    ensures var ev := NewEvents(cfg, ok, st, rec);
      && Calls(ev) == Calls(fev)
      && DeleteCount(ev) == DeleteCount(fev)
      && (Completes(cfg, ok, st, rec) <==> |ev| > 0 && ev[|ev| - 1] == Completed(rec.uuid))
  {
    var tail := if success then fev + [Completed(rec.uuid)] else fev;
    assert ProcessMeeting(cfg, ok, st, rec).trace == st.trace + tail;
    DropPrefix(st.trace, tail);
    if success {
      CountsAppend(fev, [Completed(rec.uuid)]);
      CountsSingle(Completed(rec.uuid));
    } else if |fev| > 0 {
      assert !fev[|fev| - 1].Completed?;
    }
  }

  lemma DropPrefix<T>(a: seq<T>, b: seq<T>)
    ensures (a + b)[|a|..] == b
  {
  }

  /** The meeting loop over `recs`, in order. */
  function RunMeetings(cfg: Config, ok: DownloadCall -> bool, st: State, recs: seq<Recording>): (r: State)
    ensures st.completed <= r.completed
    ensures st.log <= r.log && st.trace <= r.trace
    decreases |recs|
  {
    if |recs| == 0 then st
    else RunMeetings(cfg, ok, ProcessMeeting(cfg, ok, st, recs[0]), recs[1..])
  }

  /** A UUID is in the final set iff it was there before or some meeting with that UUID succeeds. */
  lemma {:induction false} RunMeetingsCompleted(cfg: Config, ok: DownloadCall -> bool, st: State, recs: seq<Recording>, u: string)
    ensures u in RunMeetings(cfg, ok, st, recs).completed <==>
      u in st.completed || exists i :: 0 <= i < |recs| && recs[i].uuid == u && MeetingSucceeds(cfg, ok, recs[i])
    decreases |recs|
  {
    if |recs| > 0 {
      var next := ProcessMeeting(cfg, ok, st, recs[0]);
      RunMeetingsCompleted(cfg, ok, next, recs[1..], u);
      var rest := recs[1..];
      if exists i :: 0 <= i < |rest| && rest[i].uuid == u && MeetingSucceeds(cfg, ok, rest[i]) {
        var i :| 0 <= i < |rest| && rest[i].uuid == u && MeetingSucceeds(cfg, ok, rest[i]);
        assert recs[i + 1] == rest[i];
      }
      if exists i :: 0 <= i < |recs| && recs[i].uuid == u && MeetingSucceeds(cfg, ok, recs[i]) {
        var i :| 0 <= i < |recs| && recs[i].uuid == u && MeetingSucceeds(cfg, ok, recs[i]);
        if i > 0 {
          assert rest[i - 1] == recs[i];
        }
      }
    }
  }

  /** Running over `a + b` is running over `a`, then over `b`. */
  lemma {:induction false} RunMeetingsAppend(cfg: Config, ok: DownloadCall -> bool, st: State, a: seq<Recording>, b: seq<Recording>)
    ensures RunMeetings(cfg, ok, st, a + b) == RunMeetings(cfg, ok, RunMeetings(cfg, ok, st, a), b)
    decreases |a|
  {
    if |a| == 0 {
      assert a + b == b;
    } else {
      assert (a + b)[0] == a[0];
      assert (a + b)[1..] == a[1..] + b;
      RunMeetingsAppend(cfg, ok, ProcessMeeting(cfg, ok, st, a[0]), a[1..], b);
    }
  }

  /** The in-memory set is exactly what reloading the log would give. */
  ghost predicate LogMatchesSet(st: State)
  {
    CompletedLog.AtLineStart(st.log) && st.completed == CompletedLog.LoggedIds(st.log)
  }

  /**
   * Resumability: if the set matches the log before the loop, it matches the
   * log after every meeting, so a run stopped at any point reloads to exactly
   * the meetings completed so far.
   */
  lemma {:induction false} RunKeepsLogMatchingSet(cfg: Config, ok: DownloadCall -> bool, st: State, recs: seq<Recording>)
    requires LogMatchesSet(st)
    requires forall i :: 0 <= i < |recs| ==> CompletedLog.Clean(recs[i].uuid)
    ensures LogMatchesSet(RunMeetings(cfg, ok, st, recs))
    decreases |recs|
  {
    if |recs| > 0 {
      var next := ProcessMeeting(cfg, ok, st, recs[0]);
      if Completes(cfg, ok, st, recs[0]) {
        CompletedLog.AppendEntry(st.log, recs[0].uuid);
      }
      assert LogMatchesSet(next);
      RunKeepsLogMatchingSet(cfg, ok, next, recs[1..]);
    }
  }

  /** When no meeting of `recs` can complete, the loop changes neither the set nor the log. */
  lemma {:induction false} NothingToComplete(cfg: Config, ok: DownloadCall -> bool, st: State, recs: seq<Recording>)
    requires forall i :: 0 <= i < |recs| ==> recs[i].uuid in st.completed || !MeetingSucceeds(cfg, ok, recs[i])
    ensures RunMeetings(cfg, ok, st, recs).completed == st.completed
    ensures RunMeetings(cfg, ok, st, recs).log == st.log
    decreases |recs|
  {
    if |recs| > 0 {
      var next := ProcessMeeting(cfg, ok, st, recs[0]);
      assert forall i :: 0 <= i < |recs| - 1 ==> recs[1..][i] == recs[i + 1];
      NothingToComplete(cfg, ok, next, recs[1..]);
    }
  }

  /**
   * A second run over the same meetings, with the SAME download outcomes,
   * completes nothing new and appends nothing to the log. For meetings that
   * failed the first time this rests on reusing `ok`: with other outcomes
   * such a meeting is retried and may complete, which `Idempotent` allows.
   */
  lemma RerunCompletesNothing(cfg: Config, ok: DownloadCall -> bool, st: State, recs: seq<Recording>)
    ensures var first := RunMeetings(cfg, ok, st, recs);
      var second := RunMeetings(cfg, ok, first, recs);
      second.completed == first.completed && second.log == first.log
  {
    var first := RunMeetings(cfg, ok, st, recs);
    forall i | 0 <= i < |recs| && MeetingSucceeds(cfg, ok, recs[i])
      ensures recs[i].uuid in first.completed
    {
      RunMeetingsCompleted(cfg, ok, st, recs, recs[i].uuid);
    }
    NothingToComplete(cfg, ok, first, recs);
  }

  /** The skip events of `recs`, one per meeting, in order. */
  function Skips(recs: seq<Recording>): seq<Event>
  {
    seq(|recs|, i requires 0 <= i < |recs| => Skipped(recs[i].uuid))
  }

  /**
   * A run over meetings that are all completed already only skips: whatever
   * the downloads would return, no call is made and neither the set nor the
   * log changes.
   */
  lemma {:induction false} AllDoneOnlySkips(cfg: Config, ok: DownloadCall -> bool, st: State, recs: seq<Recording>)
    requires forall i :: 0 <= i < |recs| ==> recs[i].uuid in st.completed
    ensures RunMeetings(cfg, ok, st, recs).completed == st.completed
    ensures RunMeetings(cfg, ok, st, recs).log == st.log
    ensures RunMeetings(cfg, ok, st, recs).trace == st.trace + Skips(recs)
    decreases |recs|
  {
    if |recs| == 0 {
      assert Skips(recs) == [];
    } else {
      var next := ProcessMeeting(cfg, ok, st, recs[0]);
      assert next == st.(trace := st.trace + [Skipped(recs[0].uuid)]);
      var rest := recs[1..];
      assert forall i :: 0 <= i < |rest| ==> rest[i] == recs[i + 1];
      AllDoneOnlySkips(cfg, ok, next, rest);
      assert Skips(recs) == [Skipped(recs[0].uuid)] + Skips(rest);
    }
  }

  /**
   * Idempotence: once a run has completed every meeting that was not already
   * done, a second run over the same meetings, under ANY download outcomes
   * `ok2`, only skips them, so the set and the log stay as they are.
   */
  lemma Idempotent(cfg: Config, ok: DownloadCall -> bool, ok2: DownloadCall -> bool, st: State, recs: seq<Recording>)
    requires forall i :: 0 <= i < |recs| ==> recs[i].uuid in st.completed || MeetingSucceeds(cfg, ok, recs[i])
    ensures var first := RunMeetings(cfg, ok, st, recs);
      var second := RunMeetings(cfg, ok2, first, recs);
      && second.completed == first.completed
      && second.log == first.log
      && second.trace == first.trace + Skips(recs)
  {
    var first := RunMeetings(cfg, ok, st, recs);
    forall i | 0 <= i < |recs|
      ensures recs[i].uuid in first.completed
    {
      RunMeetingsCompleted(cfg, ok, st, recs, recs[i].uuid);
    }
    AllDoneOnlySkips(cfg, ok2, first, recs);
  }

  /** A later meeting with the UUID of one just completed is skipped: no call is made for it. */
  lemma DuplicateSkipped(cfg: Config, ok: DownloadCall -> bool, st: State, a: Recording, b: Recording)
    requires a.uuid == b.uuid && Completes(cfg, ok, st, a)
    ensures var mid := ProcessMeeting(cfg, ok, st, a);
      ProcessMeeting(cfg, ok, mid, b) == mid.(trace := mid.trace + [Skipped(b.uuid)])
  {
  }

  /** The recordings `main` walks through: each account's listing, in account order. */
  function Catalog(accounts: seq<Users.Account>, listing: Windows.ListRequest -> seq<Recording>, start: int, end: int): seq<Recording>
  {
    if |accounts| == 0 then []
    else
      var last := accounts[|accounts| - 1];
      Catalog(accounts[..|accounts| - 1], listing, start, end) + Windows.Answers(listing, Windows.Requests(last.id, start, end))
  }

  /** Adding account `k` runs the loop over its listing after the accounts before it. */
  lemma CatalogStep(
    cfg: Config, ok: DownloadCall -> bool, st: State, accounts: seq<Users.Account>, k: nat,
    listing: Windows.ListRequest -> seq<Recording>, start: int, end: int)
    requires k < |accounts|
    ensures var recordings := Windows.Answers(listing, Windows.Requests(accounts[k].id, start, end));
      RunMeetings(cfg, ok, st, Catalog(accounts[..k + 1], listing, start, end)) ==
      RunMeetings(cfg, ok, RunMeetings(cfg, ok, st, Catalog(accounts[..k], listing, start, end)), recordings)
  {
    var recordings := Windows.Answers(listing, Windows.Requests(accounts[k].id, start, end));
    assert accounts[..k + 1][..k] == accounts[..k];
    assert Catalog(accounts[..k + 1], listing, start, end) == Catalog(accounts[..k], listing, start, end) + recordings;
    RunMeetingsAppend(cfg, ok, st, Catalog(accounts[..k], listing, start, end), recordings);
  }

  /**
   * The state after `load_completed_meeting_ids()`; `logFile` is `None` when
   * there is no log yet. A log that is missing, or ends at a line boundary,
   * starts the run with the set matching the log.
   */
  function Initial(logFile: Option<string>): (st: State)
    ensures logFile.None? || CompletedLog.AtLineStart(logFile.value) ==> LogMatchesSet(st)
  {
    assert CompletedLog.Lines("") == [];
    State(CompletedLog.Load({}, logFile), logFile.GetOr(""), [])
  }

  /**
   * Resuming after a stop: from a log written by earlier runs, every meeting
   * the loop completes is in the log, and reloading the log gives exactly the
   * set the run holds.
   */
  lemma RunFromLogMatchesSet(cfg: Config, ok: DownloadCall -> bool, logFile: Option<string>, recs: seq<Recording>)
    requires logFile.None? || CompletedLog.AtLineStart(logFile.value)
    requires forall i :: 0 <= i < |recs| ==> CompletedLog.Clean(recs[i].uuid)
    ensures LogMatchesSet(RunMeetings(cfg, ok, Initial(logFile), recs))
  {
    RunKeepsLogMatchingSet(cfg, ok, Initial(logFile), recs);
  }

  /** The loop `for index, recording in enumerate(recordings)` of `main`. */
  method ProcessRecordings(cfg: Config, ok: DownloadCall -> bool, st: State, recordings: seq<Recording>) returns (r: State)
    ensures r == RunMeetings(cfg, ok, st, recordings)
  {
    r := st;
    for index := 0 to |recordings|
      invariant r == RunMeetings(cfg, ok, st, recordings[..index])
    {
      RunMeetingsAppend(cfg, ok, st, recordings[..index], [recordings[index]]);
      assert recordings[..index + 1] == recordings[..index] + [recordings[index]];
      r := ProcessMeeting(cfg, ok, r, recordings[index]);
    }
    assert recordings[..|recordings|] == recordings;
  }

  /**
   * `main()`: load the completed set, list the accounts, then for each
   * account list its recordings over the date windows of `[start, end)` and
   * run the meeting loop over them. `pages`, `listing` and `ok` answer the
   * user-listing, recording-listing and download requests.
   */
  method RunAll(
    cfg: Config, logFile: Option<string>, first: Users.FirstPage, pages: int -> seq<Users.Account>,
    listing: Windows.ListRequest -> seq<Recording>, ok: DownloadCall -> bool, start: int, end: int)
    returns (r: Result<State, Users.UserError>)
    ensures first.Rejected? <==> r == Failure(Users.ExpiredCredentials)
    ensures (first.Listed? && first.pageCount < 1) <==> r == Failure(Users.NoPagesListed)
    ensures first.Listed? && first.pageCount >= 1 ==>
      r == Success(RunMeetings(cfg, ok, Initial(logFile), Catalog(Users.AllPages(pages, first.pageCount), listing, start, end)))
  {
    var initial := Initial(logFile);
    var st := initial;
    var accounts :- Users.GetUserIds(first, pages);
    for k := 0 to |accounts|
      invariant st == RunMeetings(cfg, ok, initial, Catalog(accounts[..k], listing, start, end))
    {
      var requests, recordings := Windows.ListRecordings(accounts[k].id, start, end, listing);
      CatalogStep(cfg, ok, initial, accounts, k, listing, start, end);
      st := ProcessRecordings(cfg, ok, st, recordings);
    }
    assert accounts[..|accounts|] == accounts;
    return Success(st);
  }
}

=== FILE: naming.dfy ===
/**
 * `format_filename`: the file name and folder name a download is saved under.
 * The formatted meeting time is an opaque string supplied by the caller.
 */
module Naming {
  import opened Strings

  datatype Names = Names(filename: string, folder: string)

  const Separator := " - "

  /** The topic with every `/` turned into `&`, so it cannot open a sub-directory. */
  function SafeTopic(topic: string): (t: string)
    ensures |t| == |topic| && '/' !in t
    ensures forall i :: 0 <= i < |topic| && topic[i] != '/' ==> t[i] == topic[i]
    ensures forall i :: 0 <= i < |topic| && topic[i] == '/' ==> t[i] == '&'
  {
    ReplaceChar(topic, '/', '&')
  }

  /** The recording type as shown in a name: underscores become spaces, then title case. */
  function TypeLabel(recordingType: string): (l: string)
    ensures |l| == |recordingType| && '_' !in l
    ensures '/' !in recordingType ==> '/' !in l
    ensures Title(l) == l
  {
    var spaced := ReplaceChar(recordingType, '_', ' ');
    TitleIdempotent(spaced);
    TitleKeepsNonLetter(spaced, '_');
    TitleKeepsNonLetter(spaced, '/');
    Title(spaced)
  }

  /** Title-casing neither creates nor removes a non-letter. */
  lemma TitleKeepsNonLetter(s: string, c: char)
    requires !IsLetter(c)
    ensures c in Title(s) <==> c in s
  {
    if c in Title(s) {
      var i :| 0 <= i < |s| && Title(s)[i] == c;
      assert TitleChar(s[i], if i == 0 then false else IsLetter(s[i - 1])) == c;
    }
    if c in s {
      var i :| 0 <= i < |s| && s[i] == c;
      assert Title(s)[i] == TitleChar(s[i], if i == 0 then false else IsLetter(s[i - 1]));
    }
  }

  /** Lower-casing neither creates nor removes a non-letter. */
  lemma LowerKeepsNonLetter(s: string, c: char)
    requires !IsLetter(c)
    ensures c in Lower(s) <==> c in s
  {
    if c in Lower(s) {
      var i :| 0 <= i < |s| && Lower(s)[i] == c;
      assert ToLower(s[i]) == c;
    }
    if c in s {
      var i :| 0 <= i < |s| && s[i] == c;
      assert Lower(s)[i] == ToLower(s[i]);
    }
  }

  /** `format_filename(...)`: `"<time> - <topic> - <Type> - <id>.<ext>"` and `"<topic> - <time>"`. */
  function FormatFilename(topic: string, meetingTime: string, fileExtension: string, recordingType: string, recordingId: string): Names
  {
    var t := SafeTopic(topic);
    var filename := meetingTime + Separator + t + Separator + TypeLabel(recordingType) + Separator + recordingId + "." + Lower(fileExtension);
    Names(filename, t + Separator + meetingTime)
  }

  /**
   * The folder is a single path component whenever the meeting time contains
   * no `/`: the topic never contributes one.
   */
  lemma FolderIsOneComponent(topic: string, meetingTime: string, fileExtension: string, recordingType: string, recordingId: string)
    requires '/' !in meetingTime
    ensures '/' !in FormatFilename(topic, meetingTime, fileExtension, recordingType, recordingId).folder
  {
    assert '/' !in Separator;
  }

  /**
   * The file name is a single path component whenever the meeting time,
   * recording type, file id and extension contain no `/`.
   */
  lemma FilenameIsOneComponent(topic: string, meetingTime: string, fileExtension: string, recordingType: string, recordingId: string)
    requires '/' !in meetingTime && '/' !in recordingType && '/' !in recordingId && '/' !in fileExtension
    ensures '/' !in FormatFilename(topic, meetingTime, fileExtension, recordingType, recordingId).filename
  {
    LowerKeepsNonLetter(fileExtension, '/');
    assert '/' !in Separator && '/' !in ".";
    var middle := Separator + SafeTopic(topic) + Separator + TypeLabel(recordingType) + Separator;
    assert '/' !in middle;
    assert FormatFilename(topic, meetingTime, fileExtension, recordingType, recordingId).filename
      == meetingTime + middle + recordingId + "." + Lower(fileExtension);
  }

  /** The file name starts with the meeting time and ends with the lower-cased extension; the folder starts with the topic. */
  lemma FormatFilenameShape(topic: string, meetingTime: string, fileExtension: string, recordingType: string, recordingId: string)
    ensures var n := FormatFilename(topic, meetingTime, fileExtension, recordingType, recordingId);
      && |n.folder| >= |topic| && n.folder[..|topic|] == SafeTopic(topic)
      && |n.filename| >= |meetingTime| + |fileExtension| && n.filename[..|meetingTime|] == meetingTime
      && n.filename[|n.filename| - |fileExtension|..] == Lower(fileExtension)
  {
    var t := SafeTopic(topic);
    var e := Lower(fileExtension);
    var middle := Separator + t + Separator + TypeLabel(recordingType) + Separator + recordingId + ".";
    Ends(meetingTime, middle, e);
    Ends(t, Separator + meetingTime, []);
  }

  /** The parts at both ends of a three-part concatenation. */
  lemma Ends(a: string, m: string, e: string)
    ensures (a + m + e)[..|a|] == a
    ensures (a + m + e)[|a + m + e| - |e|..] == e
  {
    assert (a + m + e)[..|a|] == a;
  }
}

=== FILE: percent_encoding.dfy ===
/**
 * Percent-encoding as Python's `urllib.parse.quote(s, safe='')` does it
 * (section 2.1 of RFC 3986): the unreserved characters of section 2.3 pass
 * through, every other character is written as `%XX` per UTF-8 byte, with
 * upper-case hex digits. The delete endpoint quotes the meeting UUID twice.
 */
module PercentEncoding {

  const HexDigits := "0123456789ABCDEF"

  const DeletePrefix := "https://api.zoom.us/v2/meetings/"
  const DeleteSuffix := "/recordings"

  /** ALPHA / DIGIT / "-" / "." / "_" / "~" */
  predicate IsUnreserved(c: char)
  {
    'A' <= c <= 'Z' || 'a' <= c <= 'z' || '0' <= c <= '9' || c == '-' || c == '.' || c == '_' || c == '~'
  }

  predicate IsAscii(s: string)
  {
    forall i :: 0 <= i < |s| ==> s[i] < 128 as char
  }

  /** The UTF-8 encoding of one character; ASCII is its own single byte. */
  function Utf8(c: char): (bs: seq<int>)
    ensures 1 <= |bs| <= 4
    ensures forall i :: 0 <= i < |bs| ==> 0 <= bs[i] < 256
    ensures c < 128 as char <==> bs == [c as int]
  {
    var n := c as int;
    if n < 0x80 then [n]
    else if n < 0x800 then [0xC0 + n / 0x40, 0x80 + n % 0x40]
    else if n < 0x1_0000 then [0xE0 + n / 0x1000, 0x80 + (n / 0x40) % 0x40, 0x80 + n % 0x40]
    else [0xF0 + n / 0x4_0000, 0x80 + (n / 0x1000) % 0x40, 0x80 + (n / 0x40) % 0x40, 0x80 + n % 0x40]
  }

  /** `%XX` for every byte, with upper-case hex digits. */
  function EscapeBytes(bs: seq<int>): (r: string)
    requires forall i :: 0 <= i < |bs| ==> 0 <= bs[i] < 256
    ensures |r| == 3 * |bs|
    ensures forall i :: 0 <= i < |r| ==> IsUnreserved(r[i]) || r[i] == '%'
  {
    if |bs| == 0 then []
    else ['%', HexDigits[bs[0] / 16], HexDigits[bs[0] % 16]] + EscapeBytes(bs[1..])
  }

  /** Escapes are `%` at every third position, each followed by two upper-case hex digits. */
  predicate EscapeShaped(r: string)
  {
    && (forall i :: 0 <= i < |r| ==> (r[i] == '%' <==> i % 3 == 0))
    && (forall i :: 0 <= i < |r| && i % 3 != 0 ==> r[i] in HexDigits)
  }

  lemma {:induction false} EscapeBytesShaped(bs: seq<int>)
    requires forall i :: 0 <= i < |bs| ==> 0 <= bs[i] < 256
    ensures EscapeShaped(EscapeBytes(bs))
  {
    if |bs| > 0 {
      var head := ['%', HexDigits[bs[0] / 16], HexDigits[bs[0] % 16]];
      var tail := EscapeBytes(bs[1..]);
      EscapeBytesShaped(bs[1..]);
      var r := head + tail;
      forall i | 0 <= i < |r|
        ensures (r[i] == '%' <==> i % 3 == 0) && (i % 3 != 0 ==> r[i] in HexDigits)
      {
        if i >= 3 {
          assert r[i] == tail[i - 3];
          assert i % 3 == (i - 3) % 3;
        }
      }
    }
  }

  /**
   * One character of `quote(s, safe='')`: an unreserved character stands for
   * itself; any other is one `%XX` escape, in upper-case hex, per UTF-8 byte.
   */
  function QuoteChar(c: char): (r: string)
    ensures forall i :: 0 <= i < |r| ==> IsUnreserved(r[i]) || r[i] == '%'
    ensures IsUnreserved(c) <==> r == [c]
    ensures !IsUnreserved(c) ==> |r| == 3 * |Utf8(c)| && EscapeShaped(r)
  {
    if IsUnreserved(c) then [c]
    else
      EscapeBytesShaped(Utf8(c));
      EscapeBytes(Utf8(c))
  }

  /** `quote(s, safe='')`: the result holds only unreserved characters and `%`. */
  function Quote(s: string): (r: string)
    ensures forall i :: 0 <= i < |r| ==> IsUnreserved(r[i]) || r[i] == '%'
    ensures |r| >= |s|
  {
    if |s| == 0 then [] else QuoteChar(s[0]) + Quote(s[1..])
  }

  /** The value of a hex digit of either case, or -1. */
  function HexValue(c: char): int
  {
    if '0' <= c <= '9' then c as int - '0' as int
    else if 'A' <= c <= 'F' then c as int - 'A' as int + 10
    else if 'a' <= c <= 'f' then c as int - 'a' as int + 10
    else -1
  }

  /**
   * Percent-decoding: `%` and two hex digits stand for the character with
   * that code; anything else stands for itself. The decoder for the ASCII
   * range, against which the encoding is checked.
   */
  function Unquote(s: string): string
  {
    if |s| == 0 then []
    else if s[0] == '%' && |s| >= 3 && HexValue(s[1]) >= 0 && HexValue(s[2]) >= 0 then
      [(HexValue(s[1]) * 16 + HexValue(s[2])) as char] + Unquote(s[3..])
    else [s[0]] + Unquote(s[1..])
  }

  lemma HexDigitValue(k: int)
    requires 0 <= k < 16
    ensures HexValue(HexDigits[k]) == k
  {
  }

  /** Decoding undoes one quoted character. */
  lemma UnquoteQuoteChar(c: char, rest: string)
    requires c < 128 as char
    ensures Unquote(QuoteChar(c) + rest) == [c] + Unquote(rest)
  {
    var q := QuoteChar(c) + rest;
    if IsUnreserved(c) {
      assert q[1..] == rest;
    } else {
      var n := c as int;
      assert QuoteChar(c) == ['%', HexDigits[n / 16], HexDigits[n % 16]];
      HexDigitValue(n / 16);
      HexDigitValue(n % 16);
      assert q[3..] == rest;
    }
  }

  /** Percent-decoding the quoted form of ASCII text gives the text back. */
  lemma {:induction false} UnquoteQuote(s: string)
    requires IsAscii(s)
    ensures Unquote(Quote(s)) == s
  {
    if |s| > 0 {
      UnquoteQuoteChar(s[0], Quote(s[1..]));
      UnquoteQuote(s[1..]);
      assert [s[0]] + s[1..] == s;
    }
  }

  /** Every `%` in `s` opens the escape `%25`. */
  predicate PercentsAreEscaped(s: string)
  {
    forall i :: 0 <= i < |s| && s[i] == '%' ==> i + 2 < |s| && s[i + 1] == '2' && s[i + 2] == '5'
  }

  lemma EscapedAppend(a: string, b: string)
    requires PercentsAreEscaped(a) && PercentsAreEscaped(b)
    ensures PercentsAreEscaped(a + b)
  {
    var s := a + b;
    forall i | 0 <= i < |s| && s[i] == '%'
      ensures i + 2 < |s| && s[i + 1] == '2' && s[i + 2] == '5'
    {
      if i >= |a| {
        assert b[i - |a|] == '%';
      } else {
        assert a[i] == '%';
      }
    }
  }

  /** Quoting text made of unreserved characters and `%` leaves only `%25` escapes. */
  lemma {:induction false} QuoteOfQuoted(s: string)
    requires forall i :: 0 <= i < |s| ==> IsUnreserved(s[i]) || s[i] == '%'
    ensures PercentsAreEscaped(Quote(s))
  {
    if |s| > 0 {
      QuoteOfQuoted(s[1..]);
      QuotedCharEscaped(s[0]);
      EscapedAppend(QuoteChar(s[0]), Quote(s[1..]));
    }
  }

  /** `%` quotes to `%25`, and an unreserved character to itself. */
  lemma QuotedCharEscaped(c: char)
    requires IsUnreserved(c) || c == '%'
    ensures PercentsAreEscaped(QuoteChar(c))
  {
    if c == '%' {
      assert Utf8(c) == [37];
      assert QuoteChar(c) == "%25";
    }
  }

  /** The path segment `quote(quote(uuid, safe=''), safe='')`. */
  function DeleteSegment(uuid: string): (seg: string)
    ensures forall i :: 0 <= i < |seg| ==> IsUnreserved(seg[i]) || seg[i] == '%'
    ensures '/' !in seg
    ensures PercentsAreEscaped(seg)
  {
    var once := Quote(uuid);
    QuoteOfQuoted(once);
    Quote(once)
  }

  /** Decoding the segment twice recovers an ASCII UUID. */
  lemma DeleteSegmentRoundTrip(uuid: string)
    requires IsAscii(uuid)
    ensures Unquote(Unquote(DeleteSegment(uuid))) == uuid
  {
    UnquoteQuote(uuid);
    UnquoteQuote(Quote(uuid));
  }

  /** `API_ENDPOINT_DELETE_RECORDINGS(meeting_uuid)`. */
  function DeleteEndpoint(uuid: string): string
  {
    DeletePrefix + DeleteSegment(uuid) + DeleteSuffix
  }

  /** Distinct ASCII meetings are deleted through distinct endpoints. */
  lemma DeleteEndpointInjective(a: string, b: string)
    requires IsAscii(a) && IsAscii(b)
    requires DeleteEndpoint(a) == DeleteEndpoint(b)
    ensures a == b
  {
    var ea, eb := DeleteEndpoint(a), DeleteEndpoint(b);
    var sa, sb := DeleteSegment(a), DeleteSegment(b);
    assert |sa| == |sb|;
    assert sa == ea[|DeletePrefix|..|DeletePrefix| + |sa|];
    assert sb == eb[|DeletePrefix|..|DeletePrefix| + |sb|];
    DeleteSegmentRoundTrip(a);
    DeleteSegmentRoundTrip(b);
  }
}

=== FILE: selection.dfy ===
/**
 * `get_downloads`: picks the files of one recording to fetch. Only `MP4`
 * files are kept, each gets a recording type and a download URL carrying
 * the access token.
 */
module Selection {

  /** One entry of a meeting's `recording_files`. */
  datatype RecordingFile = RecordingFile(
    fileType: string,
    fileExtension: string,
    downloadUrl: string,
    recordingType: string,
    id: string)

  /** One entry of the listing's `meetings`. */
  datatype Recording = Recording(uuid: string, topic: string, startTime: string, files: seq<RecordingFile>)

  /** The `(file_type, file_extension, download_url, recording_type, recording_id)` tuple. */
  datatype Download = Download(
    fileType: string,
    fileExtension: string,
    url: string,
    recordingType: string,
    recordingId: string)

  const Mp4 := "MP4"
  const Incomplete := "incomplete"
  const Timeline := "TIMELINE"
  const TokenQuery := "?access_token="

  /**
   * The recording type of a file: the sentinel for an empty file type, the
   * file type itself for a timeline, the server's recording type otherwise.
   * A file counts as incomplete exactly when its file type is empty or the
   * server itself labels a non-timeline file "incomplete".
   */
  function RecordingTypeOf(f: RecordingFile): (t: string)
    ensures f.fileType == "" ==> t == Incomplete
    ensures f.fileType == Timeline ==> t == Timeline
    ensures f.fileType != "" && f.fileType != Timeline ==> t == f.recordingType
    ensures t == Incomplete <==> f.fileType == "" || (f.fileType != Timeline && f.recordingType == Incomplete)
  {
    if f.fileType == "" then Incomplete
    else if f.fileType != Timeline then f.recordingType
    else f.fileType
  }

  /** The tuple built for one kept file. */
  function ToDownload(f: RecordingFile, token: string): Download
  {
    Download(f.fileType, f.fileExtension, f.downloadUrl + TokenQuery + token, RecordingTypeOf(f), f.id)
  }

  /** The downloads of `files`, in order; the functional reference for `GetDownloads`. */
  function Select(files: seq<RecordingFile>, token: string): (ds: seq<Download>)
    ensures |ds| <= |files|
    ensures forall i :: 0 <= i < |ds| ==> ds[i].fileExtension == Mp4
  {
    if |files| == 0 then []
    else
      var last := files[|files| - 1];
      Select(files[..|files| - 1], token) + (if last.fileExtension == Mp4 then [ToDownload(last, token)] else [])
  }

  /** Selection distributes over concatenation: files are judged one at a time. */
  lemma {:induction false} SelectAppend(a: seq<RecordingFile>, b: seq<RecordingFile>, token: string)
    ensures Select(a + b, token) == Select(a, token) + Select(b, token)
    decreases |b|
  {
    if |b| == 0 {
      assert a + b == a;
    } else {
      var b' := b[..|b| - 1];
      assert (a + b)[..|a + b| - 1] == a + b';
      SelectAppend(a, b', token);
    }
  }

  /** The positions of the `MP4` files, in order: where each download comes from. */
  function Picked(files: seq<RecordingFile>): seq<nat>
  {
    if |files| == 0 then []
    else Picked(files[..|files| - 1]) + (if files[|files| - 1].fileExtension == Mp4 then [|files| - 1] else [])
  }

  /** Indices into a sequence of length `n`, strictly increasing. */
  ghost predicate Ascending(picked: seq<nat>, n: nat)
  {
    && (forall k :: 0 <= k < |picked| ==> picked[k] < n)
    && (forall k, l :: 0 <= k < l < |picked| ==> picked[k] < picked[l])
  }

  /** The picked positions are exactly the `MP4` files, each once, in input order. */
  lemma {:induction false} PickedExactlyMp4(files: seq<RecordingFile>)
    ensures Ascending(Picked(files), |files|)
    ensures forall k :: 0 <= k < |Picked(files)| ==> files[Picked(files)[k]].fileExtension == Mp4
    ensures forall j :: 0 <= j < |files| && files[j].fileExtension == Mp4 ==> j in Picked(files)
  {
    if |files| > 0 {
      var n := |files| - 1;
      var init := files[..n];
      PickedExactlyMp4(init);
      var p := Picked(init);
      assert forall k :: 0 <= k < |p| ==> init[p[k]] == files[p[k]];
      assert forall j :: 0 <= j < n ==> init[j] == files[j];
    }
  }

  /** Download `k` is the tuple built from the file at picked position `k`. */
  lemma {:induction false} SelectPicked(files: seq<RecordingFile>, token: string)
    ensures |Select(files, token)| == |Picked(files)|
    ensures forall k :: 0 <= k < |Picked(files)| ==>
      Picked(files)[k] < |files| && Select(files, token)[k] == ToDownload(files[Picked(files)[k]], token)
  {
    if |files| > 0 {
      var n := |files| - 1;
      var init := files[..n];
      SelectPicked(init, token);
      var p := Picked(init);
      assert forall k :: 0 <= k < |p| ==> init[p[k]] == files[p[k]];
    }
  }

  /**
   * `get_downloads(recording)`: the downloads are the selection of the
   * recording's files; download `k` comes from the `k`-th `MP4` file, with the
   * file's URL followed by the token query.
   */
  method GetDownloads(recording: Recording, token: string) returns (downloads: seq<Download>)
    ensures downloads == Select(recording.files, token)
    ensures |downloads| == |Picked(recording.files)|
    ensures forall k :: 0 <= k < |downloads| ==>
      Picked(recording.files)[k] < |recording.files| &&
      var f := recording.files[Picked(recording.files)[k]];
      downloads[k] == Download(f.fileType, f.fileExtension, f.downloadUrl + TokenQuery + token, RecordingTypeOf(f), f.id)
  {
    var files := recording.files;
    downloads := [];
    for i := 0 to |files|
      invariant downloads == Select(files[..i], token)
    {
      assert files[..i + 1][..i] == files[..i];
      var f := files[i];
      if f.fileExtension != Mp4 {
        continue;
      }
      var recordingType;
      if f.fileType == "" {
        recordingType := Incomplete;
      } else if f.fileType != Timeline {
        recordingType := f.recordingType;
      } else {
        recordingType := f.fileType;
      }
      var url := f.downloadUrl + TokenQuery + token;
      downloads := downloads + [Download(f.fileType, f.fileExtension, url, recordingType, f.id)];
    }
    assert files[..|files|] == files;
    SelectPicked(files, token);
  }
}

=== FILE: strings.dfy ===
/**
 * The Python `str` operations the downloader applies to names and log lines:
 * `replace` of one character, `title`, `lower` and `strip`.
 * Case mapping covers ASCII letters only.
 */
module Strings {

  predicate IsUpper(c: char) { 'A' <= c <= 'Z' }

  predicate IsLower(c: char) { 'a' <= c <= 'z' }

  /** A cased character in the sense of Python's `title`, restricted to ASCII. */
  predicate IsLetter(c: char) { IsUpper(c) || IsLower(c) }

  function ToUpper(c: char): (r: char)
    ensures IsLetter(r) <==> IsLetter(c)
    ensures !IsLower(r)
    ensures !IsLetter(c) ==> r == c
  {
    if IsLower(c) then (c as int - 32) as char else c
  }

  function ToLower(c: char): (r: char)
    ensures IsLetter(r) <==> IsLetter(c)
    ensures !IsUpper(r)
    ensures !IsLetter(c) ==> r == c
  {
    if IsUpper(c) then (c as int + 32) as char else c
  }

  /** `s.replace(from, to)` for single characters: every `from` becomes `to`. */
  function ReplaceChar(s: string, from: char, to: char): (r: string)
    ensures |r| == |s|
    ensures forall i :: 0 <= i < |s| ==> r[i] == (if s[i] == from then to else s[i])
    ensures from != to ==> from !in r
  {
    if |s| == 0 then []
    else [if s[0] == from then to else s[0]] + ReplaceChar(s[1..], from, to)
  }

  /** `s.lower()`: every upper-case letter becomes lower case, nothing else moves. */
  function Lower(s: string): (r: string)
    ensures |r| == |s|
    ensures forall i :: 0 <= i < |s| ==> r[i] == ToLower(s[i])
    ensures forall i :: 0 <= i < |r| ==> !IsUpper(r[i])
  {
    if |s| == 0 then [] else [ToLower(s[0])] + Lower(s[1..])
  }

  /** The `title()` mapping of one character, given whether a letter precedes it. */
  function TitleChar(c: char, afterLetter: bool): (r: char)
    ensures IsLetter(r) <==> IsLetter(c)
    ensures !IsLetter(c) ==> r == c
  {
    if !IsLetter(c) then c else if afterLetter then ToLower(c) else ToUpper(c)
  }

  /**
   * `s.title()`: a letter that follows a letter is lower-cased, any other
   * letter (the first of a word) is upper-cased; non-letters are kept.
   * `afterLetter` says whether the character before `s` was a letter.
   */
  function TitleFrom(s: string, afterLetter: bool): (r: string)
    ensures |r| == |s|
    ensures forall i :: 0 <= i < |s| ==>
      r[i] == TitleChar(s[i], if i == 0 then afterLetter else IsLetter(s[i - 1]))
  {
    if |s| == 0 then []
    else [TitleChar(s[0], afterLetter)] + TitleFrom(s[1..], IsLetter(s[0]))
  }

  function Title(s: string): string
  {
    TitleFrom(s, false)
  }

  /**
   * Title-casing a title-cased string changes nothing: letterhood is kept, so
   * every word starts where it did, and its first letter is already upper case.
   */
  lemma TitleIdempotent(s: string)
    ensures Title(Title(s)) == Title(s)
  {
    var t := Title(s);
    forall i | 0 <= i < |s|
      ensures Title(t)[i] == t[i]
    {
      var prev := if i == 0 then false else IsLetter(s[i - 1]);
      assert t[i] == TitleChar(s[i], prev);
      if i > 0 {
        assert t[i - 1] == TitleChar(s[i - 1], if i == 1 then false else IsLetter(s[i - 2]));
      }
      assert Title(t)[i] == TitleChar(t[i], prev);
    }
  }

  /** Python's `str.isspace()`: the characters `strip()` removes. */
  predicate IsSpace(c: char)
  {
    || c == ' ' || '\t' <= c <= '\r' || '\U{1C}' <= c <= '\U{1F}'
    || c == '\U{85}' || c == '\U{A0}' || c == '\U{1680}'
    || '\U{2000}' <= c <= '\U{200A}' || c == '\U{2028}' || c == '\U{2029}'
    || c == '\U{202F}' || c == '\U{205F}' || c == '\U{3000}'
  }

  /** Leading whitespace removed: the longest suffix of `s` that does not start with a space. */
  function TrimStart(s: string): (r: string)
    ensures |r| <= |s| && r == s[|s| - |r|..]
    ensures forall i :: 0 <= i < |s| - |r| ==> IsSpace(s[i])
    ensures |r| > 0 ==> !IsSpace(r[0])
  {
    if |s| > 0 && IsSpace(s[0]) then TrimStart(s[1..]) else s
  }

  /** Trailing whitespace removed: the longest prefix of `s` that does not end with a space. */
  function TrimEnd(s: string): (r: string)
    ensures |r| <= |s| && r == s[..|r|]
    ensures forall i :: |r| <= i < |s| ==> IsSpace(s[i])
    ensures |r| > 0 ==> !IsSpace(r[|r| - 1])
  {
    if |s| > 0 && IsSpace(s[|s| - 1]) then TrimEnd(s[..|s| - 1]) else s
  }

  /** `s.strip()`. */
  function Strip(s: string): string
  {
    TrimEnd(TrimStart(s))
  }

  /** A string with no whitespace at either end. */
  predicate Trimmed(s: string)
  {
    |s| == 0 || (!IsSpace(s[0]) && !IsSpace(s[|s| - 1]))
  }

  /** `strip()` yields a trimmed string and leaves a trimmed one as it is. */
  lemma StripSpec(s: string)
    ensures Trimmed(Strip(s))
    ensures Trimmed(s) ==> Strip(s) == s
  {
    var t := TrimStart(s);
    if |Strip(s)| > 0 {
      assert Strip(s)[0] == t[0];
    }
  }
}

=== FILE: users.dfy ===
/**
 * `get_user_ids`: the paginated listing of the organisation's accounts.
 * The first request only learns the page count; pages `1..page_count` are
 * then fetched and their accounts concatenated in server order.
 */
module Users {
  import opened Wrappers

  /** The `(email, id, first_name, last_name)` tuple kept per user. */
  datatype Account = Account(email: string, id: string, firstName: string, lastName: string)

  /** The answer to the first listing request. */
  datatype FirstPage =
    | Rejected                  // `response.ok` is false
    | Listed(pageCount: int)    // `int(page_data["page_count"])`

  datatype UserError =
    | ExpiredCredentials        // the process prints a hint and exits with status 1
    | NoPagesListed             // no page was fetched, so `data` is never bound

  /** Accounts of pages `1..n`, in page order: the reference for the loop. */
  function AllPages(fetch: int -> seq<Account>, n: int): seq<Account>
    decreases n
  {
    if n < 1 then [] else AllPages(fetch, n - 1) + fetch(n)
  }

  /** Every account listed comes from exactly the pages `1..n`, none from elsewhere. */
  lemma {:induction false} AllPagesMembers(fetch: int -> seq<Account>, n: int, a: Account)
    ensures a in AllPages(fetch, n) <==> exists p :: 1 <= p <= n && a in fetch(p)
    decreases n
  {
    if n >= 1 {
      AllPagesMembers(fetch, n - 1, a);
      if a in fetch(n) {
        assert 1 <= n <= n && a in fetch(n);
      }
      if exists p :: 1 <= p <= n && a in fetch(p) {
        var p :| 1 <= p <= n && a in fetch(p);
        if p < n {
          assert 1 <= p <= n - 1 && a in fetch(p);
        }
      }
    }
  }

  /** `get_user_ids()`; `fetch(p)` stands for the accounts on page `p`. */
  method GetUserIds(first: FirstPage, fetch: int -> seq<Account>) returns (r: Result<seq<Account>, UserError>)
    ensures first.Rejected? <==> r == Failure(ExpiredCredentials)
    ensures (first.Listed? && first.pageCount < 1) <==> r == Failure(NoPagesListed)
    ensures first.Listed? && first.pageCount >= 1 ==> r == Success(AllPages(fetch, first.pageCount))
  {
    if first.Rejected? {
      return Failure(ExpiredCredentials);
    }
    var totalPages := first.pageCount + 1;
    var allEntries: seq<Account> := [];
    var data: Option<seq<Account>> := None;
    var page := 1;
    while page < totalPages
      invariant 1 <= page
      invariant page <= totalPages || page == 1
      invariant allEntries == AllPages(fetch, page - 1)
      invariant data.Some? <==> page > 1
      invariant data.Some? ==> data.value == allEntries
      decreases totalPages - page
    {
      allEntries := allEntries + fetch(page);
      data := Some(allEntries);
      page := page + 1;
    }
    if data.None? {
      return Failure(NoPagesListed);
    }
    return Success(data.value);
  }
}

=== FILE: windows.dfy ===
/**
 * Date-windowed recording listing: `perdelta` splits `[start, end)` into
 * consecutive windows of at most `delta` days, and `list_recordings` asks the
 * listing endpoint once per window and concatenates the answers.
 * Dates are day numbers.
 */
module Windows {

  /** The listing endpoint accepts at most this many days per call. */
  const WindowDays := 30

  /** Page size sent with every listing request. */
  const PageSize := 300

  /** One `(curr, min(curr + delta, end))` pair yielded by `perdelta`. */
  datatype Window = Window(from: int, to: int)

  /** Number of windows of `delta` days needed to cover `[start, end)`: the ceiling of the length over `delta`. */
  function WindowCount(start: int, end: int, delta: int): nat
    requires delta > 0
  {
    if start < end then (end - start + delta - 1) / delta else 0
  }

  /** Python's `min` on two day numbers. */
  function Min(a: int, b: int): int { if a <= b then a else b }

  /** `b` begins `delta` days after `a` begins, exactly where `a` ends. */
  predicate Follows(a: Window, b: Window, delta: int)
  {
    b.from == a.from + delta && a.to == b.from
  }

  /** The windows `perdelta(start, end, delta)` yields, in order. */
  function PerDelta(start: int, end: int, delta: int): (w: seq<Window>)
    requires delta > 0
    ensures start >= end ==> w == []
    ensures start < end ==> |w| > 0 && w[0].from == start && w[|w| - 1].to == end
    ensures forall i :: 0 <= i < |w| ==> start <= w[i].from && w[i].to <= end
    ensures forall i :: 0 <= i < |w| ==> w[i].from < w[i].to <= w[i].from + delta
    ensures forall i {:trigger Follows(w[i], w[i + 1], delta)} :: 0 <= i < |w| - 1 ==> Follows(w[i], w[i + 1], delta)
    decreases end - start
  {
    if start < end then
      var rest := PerDelta(start + delta, end, delta);
      var w := [Window(start, Min(start + delta, end))] + rest;
      assert forall i {:trigger Follows(w[i], w[i + 1], delta)} :: 0 <= i < |w| - 1 ==> Follows(w[i], w[i + 1], delta) by {
        forall i | 0 <= i < |w| - 1
          ensures Follows(w[i], w[i + 1], delta)
        {
          if i > 0 {
            var k := i - 1;
            assert w[i] == rest[k] && w[i + 1] == rest[k + 1];
            assert Follows(rest[k], rest[k + 1], delta);
          }
        }
      }
      w
    else
      []
  }

  /** `perdelta` yields the ceiling of `(end - start) / delta` windows. */
  lemma {:induction false} PerDeltaCount(start: int, end: int, delta: int)
    requires delta > 0
    ensures |PerDelta(start, end, delta)| == WindowCount(start, end, delta)
    decreases end - start
  {
    if start < end {
      PerDeltaCount(start + delta, end, delta);
      CountStep(start, end, delta);
    }
  }

  /** One window covers `delta` days, so the ceiling drops by exactly one. */
  lemma CountStep(start: int, end: int, delta: int)
    requires delta > 0 && start < end
    ensures WindowCount(start, end, delta) == 1 + WindowCount(start + delta, end, delta)
  {
    var n := end - start + delta - 1;
    if start + delta < end {
      DivSubtract(n, delta);
    } else {
      DivUnique(n, delta, 1, n - delta);
    }
  }

  lemma DivSubtract(n: int, d: int)
    requires d > 0 && n >= d
    ensures n / d == 1 + (n - d) / d
  {
    var q := (n - d) / d;
    var r := (n - d) % d;
    assert n - d == d * q + r && 0 <= r < d;
    assert n == d * (q + 1) + r by { assert d * (q + 1) == d * q + d; }
    DivUnique(n, d, q + 1, r);
  }

  /** Euclidean division has one quotient. */
  lemma DivUnique(n: int, d: int, q: int, r: int)
    requires d > 0 && n == d * q + r && 0 <= r < d
    ensures n / d == q
  {
    var q' := n / d;
    var r' := n % d;
    assert n == d * q' + r';
    if q' > q {
      assert d * q' >= d * (q + 1) by { MulMono(d, q + 1, q'); }
      assert false;
    } else if q' < q {
      assert d * q >= d * (q' + 1) by { MulMono(d, q' + 1, q); }
      assert false;
    }
  }

  lemma MulMono(d: int, a: int, b: int)
    requires d > 0 && a <= b
    ensures d * a <= d * b
  {
    assert d * b - d * a == d * (b - a);
  }

  /** Windows never overlap: each ends no later than any later one begins. */
  lemma PerDeltaDisjoint(start: int, end: int, delta: int, i: int, j: int)
    requires delta > 0
    requires 0 <= i < j < |PerDelta(start, end, delta)|
    ensures PerDelta(start, end, delta)[i].to <= PerDelta(start, end, delta)[j].from
    decreases j - i
  {
    var w := PerDelta(start, end, delta);
    var m := j - 1;
    assert Follows(w[m], w[m + 1], delta);
    if j > i + 1 {
      PerDeltaDisjoint(start, end, delta, i, j - 1);
    }
  }

  predicate Contains(w: Window, d: int) { w.from <= d < w.to }

  /** Every day of `[start, end)` lies in some window (and, the windows being disjoint, in only one). */
  lemma {:induction false} PerDeltaCovers(start: int, end: int, delta: int, d: int) returns (k: nat)
    requires delta > 0 && start <= d < end
    ensures k < |PerDelta(start, end, delta)| && Contains(PerDelta(start, end, delta)[k], d)
    decreases end - start
  {
    var rest := PerDelta(start + delta, end, delta);
    var w := [Window(start, Min(start + delta, end))] + rest;
    assert PerDelta(start, end, delta) == w;
    if d < w[0].to {
      k := 0;
    } else {
      var j := PerDeltaCovers(start + delta, end, delta, d);
      k := j + 1;
      assert w[k] == rest[j];
    }
  }

  /** 95 days in 30-day windows take 4 listing calls. */
  lemma NinetyFiveDays()
    ensures |PerDelta(0, 95, WindowDays)| == 4
    ensures PerDelta(0, 95, WindowDays)[3] == Window(90, 95)
  {
    PerDeltaCount(0, 95, WindowDays);
  }

  /** The query `get_recordings` builds for one window. */
  datatype ListRequest = ListRequest(userId: string, pageSize: int, from: int, to: int)

  /** Request `b` asks for the days right after those of request `a`. */
  predicate Chained(a: ListRequest, b: ListRequest)
  {
    a.to == b.from
  }

  /**
   * The requests `list_recordings` makes for one user: one per window, in
   * window order. Every request asks for at most 30 days with page size 300,
   * the first starts at `start`, the last ends at `end`, and each picks up
   * where the previous one stopped.
   */
  function Requests(userId: string, start: int, end: int): (rs: seq<ListRequest>)
    ensures start >= end <==> rs == []
    ensures |rs| > 0 ==> rs[0].from == start && rs[|rs| - 1].to == end
    ensures forall i :: 0 <= i < |rs| ==>
      && rs[i].userId == userId && rs[i].pageSize == PageSize
      && start <= rs[i].from < rs[i].to <= rs[i].from + WindowDays
      && rs[i].to <= end
    ensures forall i {:trigger Chained(rs[i], rs[i + 1])} :: 0 <= i < |rs| - 1 ==> Chained(rs[i], rs[i + 1])
  {
    var w := PerDelta(start, end, WindowDays);
    var rs := seq(|w|, i requires 0 <= i < |w| => ListRequest(userId, PageSize, w[i].from, w[i].to));
    assert forall i {:trigger Chained(rs[i], rs[i + 1])} :: 0 <= i < |rs| - 1 ==> Chained(rs[i], rs[i + 1]) by {
      forall i | 0 <= i < |rs| - 1
        ensures Chained(rs[i], rs[i + 1])
      {
        assert Follows(w[i], w[i + 1], WindowDays);
      }
    }
    rs
  }

  /** All recordings returned by `requests`, in request order. */
  function Answers<M>(fetch: ListRequest -> seq<M>, requests: seq<ListRequest>): seq<M>
  {
    if |requests| == 0 then [] else Answers(fetch, requests[..|requests| - 1]) + fetch(requests[|requests| - 1])
  }

  /**
   * `list_recordings(user)`: one request per window of `[start, end)`, each with
   * the fixed page size, answered by `fetch` and concatenated in window order.
   */
  method ListRecordings<M>(userId: string, start: int, end: int, fetch: ListRequest -> seq<M>)
    returns (requests: seq<ListRequest>, recordings: seq<M>)
    ensures var w := PerDelta(start, end, WindowDays);
      && |requests| == |w|
      && forall i :: 0 <= i < |w| ==> requests[i] == ListRequest(userId, PageSize, w[i].from, w[i].to)
    ensures requests == Requests(userId, start, end)
    ensures recordings == Answers(fetch, requests)
  {
    var w := PerDelta(start, end, WindowDays);
    requests := [];
    recordings := [];
    var curr := start;
    while curr < end
      invariant |requests| <= |w|
      invariant |requests| < |w| ==> w[|requests|].from == curr
      invariant |requests| == |w| <==> curr >= end
      invariant forall i :: 0 <= i < |requests| ==> requests[i] == ListRequest(userId, PageSize, w[i].from, w[i].to)
      invariant recordings == Answers(fetch, requests)
      decreases end - curr
    {
      var request := ListRequest(userId, PageSize, curr, Min(curr + WindowDays, end));
      if |requests| < |w| - 1 {
        assert Follows(w[|requests|], w[|requests| + 1], WindowDays);
      }
      assert request == ListRequest(userId, PageSize, w[|requests|].from, w[|requests|].to);
      requests := requests + [request];
      recordings := recordings + fetch(request);
      curr := curr + WindowDays;
    }
  }
}

=== FILE: wrappers.dfy ===
/** Failure-compatible result types shared by the model. */
module Wrappers {

  /** A value that may be absent (a file that may not exist, say). */
  datatype Option<+T> = None | Some(value: T) {

    /** The wrapped value, or `default` when there is none. */
    function GetOr(default: T): T
    {
      match this
      case Some(v) => v
      case None => default
    }
  }

  /** The outcome of an operation that can fail with an error of type `E`. */
  datatype Result<+R, +E> = Success(value: R) | Failure(error: E) {

    predicate IsFailure() {
      Failure?
    }

    function PropagateFailure<U>(): Result<U, E>
      requires Failure?
    {
      Failure(error)
    }

    function Extract(): R
      requires Success?
    {
      value
    }
  }
}
